=== FILE: README.md ===
# Quest Master core, modelled in Dafny

Quest Master is a desktop tool for writing guild quests. This project models
its three pieces of real logic and proves properties about them:

- **The quest store** (`Quests_master/core/database.py`). SQLite is replaced by
  an immutable `Store`, which holds:
  - a map from quest id to record;
  - an append-only sequence of version snapshots;
  - an append-only sequence of map markers;
  - the next AUTOINCREMENT id.

  It models `create_draft_quest`, `_snapshot_version`, `update_quest_field`,
  `get_quest`, `get_quest_as_dict`, `add_location` and
  `get_locations_for_quest`. Each is a pure function, and the raised errors
  become a `Result`.
- **The XP and level engine** (`Quests_master/core/gamification.py`). It
  models the fixed level and event tables, the `XPState` accumulator,
  `_recalculate_level`, `add_event` and `get_progress_to_next_level`.
- **The wizard's pure logic** (`Quests_master/gui/quest_wizard.py`). It models:
  - the word counter `_count_words`;
  - the accept/reject rule of `_validate_fields`;
  - the column names and values the autosave handlers pass to the store;
  - the signals the "create" button emits.

Python's `str.strip()` and the `\s` class of `re` are modelled exactly over
the 29 characters Python treats as whitespace (module `Text`).

Modules:

| module | file | content |
|---|---|---|
| `Results` | results.dfy | `Option` and `Result` |
| `Text` | text.dfy | Python whitespace, `lstrip`/`rstrip`/`strip`, decimal rendering of an `int` |
| `QuestStore` | quest_store.dfy | the three tables and the store operations |
| `StoreInvariants` | store_invariants.dfy | invariant preservation, snapshot counts, draft titles, markers |
| `QuestTrace` | quest_trace.dfy | whole sequences of store calls |
| `Gamification` | gamification.dfy | the XP engine |
| `XpProperties` | xp_properties.dfy | levels, event sequences, progress percentage |
| `QuestWizard` | quest_wizard.dfy | word count, validation, autosave calls, create signals |

Two behaviours of the code are stated as proved facts, not corrected:

- **Draft titles can repeat** (`StoreInvariants.DraftTitleCanRepeat`). Draft
  titles are numbered by counting the titles that currently carry the prefix,
  so they are not unique. Make two drafts, retitle the first, and make a third:
  it gets "Новый квест #2" again. The schema has no uniqueness constraint, so
  this is how the code behaves, not a defect.
- **Progress above the top level** (`XpProperties.ProgressBoundaryValues`).
  Progress is 0 at exactly 100 XP. Above 100 XP it grows without bound, as the
  code computes.

## Model

| member | source | states |
|---|---|---|
| QuestStore.ParseDifficulty | Quests_master/core/database.py:39 | the difficulty `CHECK` admits a value exactly when it is the stored text of one of the four tiers |
| QuestStore.DraftTitle | Quests_master/core/database.py:89-92 | a draft title always starts with "Новый квест". It is the bare prefix exactly when no existing title carries the prefix. Otherwise it is followed by " #" and digits, with no leading zero, that read back as the count plus one |
| QuestStore.CreateDraft | Quests_master/core/database.py:79-104 | a draft gets the next id and the counted title. It starts at 'Легкий', reward 10, empty description and deadline. One snapshot of it is appended. Other records and markers are untouched |
| QuestStore.SetField | Quests_master/core/database.py:127 | `UPDATE ... SET field` sets that one column to the value and keeps every other column and the id |
| QuestStore.SnapshotOf | Quests_master/core/database.py:112-117 | a snapshot row belongs to the quest it was taken from |
| QuestStore.Snapshot | Quests_master/core/database.py:106-119 | `_snapshot_version` appends the record's snapshot when the record exists. Otherwise nothing changes. No other table changes |
| QuestStore.UpdateField | Quests_master/core/database.py:121-129 | rejects a field outside the five-name whitelist before anything changes. Fails on a bad difficulty of an existing record, and only then. A missing id changes nothing. Success changes only the named field of that record and appends one snapshot of the new record |
| QuestStore.GetQuest | Quests_master/core/database.py:131-145 | returns the stored record, or none exactly when the id is unknown |
| QuestStore.GetQuestAsDict | Quests_master/core/database.py:147-151 | the dictionary has exactly the keys id plus the five columns, each holding the record's value; none for an unknown id |
| QuestStore.AddLocation | Quests_master/core/database.py:155-171 | appends exactly one marker, with the next row id and the given fields. The old markers and the other tables are untouched |
| QuestStore.GetLocationsForQuest | Quests_master/core/database.py:173-179 | a marker is listed exactly when it is stored with that quest id |
| StoreInvariants.EmptyIsValid | Quests_master/core/database.py:31-75 | a fresh database satisfies the store invariant |
| StoreInvariants.NoVersionsWithoutQuest | Quests_master/core/database.py:106-110 | in a valid store, an id without a record has no snapshots |
| StoreInvariants.WriteAndSnapshotKeepsValid | Quests_master/core/database.py:101-103 | writing one record and appending its snapshot keeps the invariant |
| StoreInvariants.CreateDraftPreservesValid | Quests_master/core/database.py:79-104 | `create_draft_quest` keeps the invariant |
| StoreInvariants.UpdateFieldPreservesValid | Quests_master/core/database.py:121-129 | every accepted `update_quest_field` keeps the invariant |
| StoreInvariants.AddLocationPreservesValid | Quests_master/core/database.py:155-171 | `add_location` keeps the invariant |
| StoreInvariants.LatestSnapshotIsCurrent | Quests_master/core/database.py:106-119 | in a valid store, each record's newest snapshot holds its current title, difficulty, reward and description |
| StoreInvariants.DraftHasOneVersion | Quests_master/core/database.py:101-104 | a new draft has exactly one snapshot; every other quest's count is unchanged |
| StoreInvariants.UpdateVersionCount | Quests_master/core/database.py:127-129 | an accepted update adds one snapshot to an existing quest and none to any other id |
| StoreInvariants.ReadAfterWrite | Quests_master/core/database.py:121-151 | after an accepted update, `get_quest_as_dict` is the old dictionary with only that field replaced by the new value |
| StoreInvariants.DeadlineEditRepeatsSnapshot | Quests_master/core/database.py:112-129 | a deadline edit succeeds and appends a snapshot equal to the previous newest one, because the deadline is not part of a snapshot |
| StoreInvariants.BadDifficultyRejected | Quests_master/core/database.py:39 | a difficulty outside the four tiers fails on an existing record and changes nothing on a missing one |
| StoreInvariants.DifficultyRoundTrip | Quests_master/core/database.py:39 | each tier's stored text is admitted by the `CHECK` as that same tier |
| StoreInvariants.DraftTitleInjective | Quests_master/core/database.py:89-92 | different prefix counts give different draft titles |
| QuestStore.CountDraftTitles | Quests_master/core/database.py:84-87 | the count of prefixed titles is 0 exactly when no stored title starts with "Новый квест" |
| StoreInvariants.CountAfterCreate | Quests_master/core/database.py:83-100 | a new draft raises the count of prefixed titles by exactly one |
| StoreInvariants.CountAfterRetitle | Quests_master/core/database.py:84-87 | a title edit changes the prefixed-title count only through the edited record: its old title leaves the count and its new one joins it |
| StoreInvariants.TwoDraftsFromEmpty | Quests_master/core/database.py:89-92 | from an empty store, two drafts are titled "Новый квест" and "Новый квест #2" |
| StoreInvariants.SecondDraftTitle | Quests_master/core/database.py:89-92 | with one prefixed title present, the next draft is "Новый квест #2" |
| StoreInvariants.DraftTitleCanRepeat | Quests_master/core/database.py:83-92 | the counting scheme can give two drafts the same title |
| StoreInvariants.AddLocationThenList | Quests_master/core/database.py:155-179 | adding a marker appends it to its own quest's list and leaves every other quest's list unchanged |
| StoreInvariants.DuplicateMarkersKept | Quests_master/core/database.py:163-170 | two identical markers are both stored and both listed |
| StoreInvariants.MarkerForUnknownQuestStored | Quests_master/core/database.py:64-72 | a marker for a quest id without a record is still stored, because foreign keys are not enforced |
| QuestTrace.StepPreservesValid | Quests_master/core/database.py:79-171 | every store call keeps the invariant, whether it succeeds or raises |
| QuestTrace.RunPreservesValid | Quests_master/core/database.py:79-171 | every sequence of store calls keeps the invariant |
| QuestTrace.RunOnlyAppends | Quests_master/core/database.py:94-171 | records are never removed; the snapshot and marker tables only grow at the end |
| QuestTrace.StepVersionCount | Quests_master/core/database.py:101-129 | one call adds a snapshot to a quest exactly when it creates it or is an accepted update of it |
| QuestTrace.RunVersionCount | Quests_master/core/database.py:101-129 | over any sequence, a quest's snapshot count grows by its creation plus its accepted updates |
| QuestTrace.VersionCountFromEmpty | Quests_master/core/database.py:101-129 | from an empty store, every quest has 1 + (accepted updates) snapshots, and an id without a record has none |
| QuestTrace.MarkerRowsAt | Quests_master/core/database.py:163-170 | the i-th of several marker calls writes call i's fields under row id base + i + 1 |
| QuestTrace.MarkersListedInCallOrder | Quests_master/core/database.py:155-179 | after several marker calls for one quest, its list is the old list followed by the new markers in call order |
| Gamification.Delta | Quests_master/core/gamification.py:41 | a known event earns its configured XP, which is positive; any other name earns 0 |
| Gamification.AddEvent | Quests_master/core/gamification.py:39-46 | XP grows by the event's delta and the level is re-derived from the new XP. One achievement line is logged exactly when the delta is positive. The post-state (xp, level) is returned |
| Gamification.Thresholds | Quests_master/core/gamification.py:51 | the thresholds are the level table's values, in definition order, which is strictly ascending, so they equal `sorted(LEVELS.values())` |
| Gamification.NextThreshold | Quests_master/core/gamification.py:51-56 | the first threshold, in sorted order, that lies above the XP; the last threshold when none does |
| Gamification.PrevThreshold | Quests_master/core/gamification.py:57-60 | the last threshold, in sorted order, that the XP reaches; 0 when it reaches none |
| Gamification.TruncDiv | Quests_master/core/gamification.py:62 | `int()` of a quotient rounds toward zero: the remainder has the dividend's sign and is smaller than the divisor in size |
| Gamification.ThresholdsAround | Quests_master/core/gamification.py:51-60 | the next and previous thresholds are 0 and 0 below 0 XP, 50 and 0 from 0 to 49, 100 and 50 from 50 to 99, and 100 and 100 from 100 |
| Gamification.Progress | Quests_master/core/gamification.py:48-62 | the percentage is 2·xp from 0 to 49, 2·(xp − 50) from 50 to 99, (xp − 100)·100 from 100, and xp·100 below 0 |
| Gamification.ScanLevels | Quests_master/core/gamification.py:32-37 | the scan returns its starting level or the name of an entry whose threshold the XP reaches |
| Gamification.LevelOf | Quests_master/core/gamification.py:32-37 | the level is "Ученик" or the name of a level whose threshold the XP reaches |
| XpProperties.ScanNoneReached | Quests_master/core/gamification.py:32-37 | a scan that reaches no threshold keeps the starting level |
| XpProperties.ScanFindsLastReached | Quests_master/core/gamification.py:32-37 | the scan ends on the last entry, in definition order, whose threshold the XP reaches |
| XpProperties.LevelIsHighestReached | Quests_master/core/gamification.py:32-37 | for non-negative XP, the level is the name of a threshold the XP reaches |
| XpProperties.LevelBands | Quests_master/core/gamification.py:7-37 | the level is "Ученик" below 50, "Мастер пергаментов" from 50 to 99 and "Архимаг документов" from 100 |
| XpProperties.InitialConsistent | Quests_master/core/gamification.py:21-25 | the initial state (0 XP, "Ученик") has the level its XP gives |
| XpProperties.AddEventKeepsConsistent | Quests_master/core/gamification.py:39-46 | after any event, XP is non-negative and the level is the one the XP gives |
| XpProperties.UnknownEventIsNoOp | Quests_master/core/gamification.py:41-46 | an unknown event name changes nothing |
| XpProperties.RunEventsXp | Quests_master/core/gamification.py:39-46 | after any event sequence, XP is the start plus the known events' deltas |
| XpProperties.RunEventsConsistent | Quests_master/core/gamification.py:39-46 | after any event sequence, XP is non-negative and the level matches the XP |
| XpProperties.RunEventsLog | Quests_master/core/gamification.py:39-46 | after any event sequence, the log is extended by one line per known event, in order |
| XpProperties.RunEventsSummary | Quests_master/core/gamification.py:39-46 | after any event sequence, XP is the start plus the known events' deltas and the level matches the XP. The log is extended by one line per known event, in order |
| XpProperties.XpNonDecreasing | Quests_master/core/gamification.py:13-18 | the XP after a longer prefix of an event sequence is never smaller |
| XpProperties.TotalXpNonNegative | Quests_master/core/gamification.py:13-18 | any event sequence is worth a non-negative amount of XP |
| XpProperties.RunEventsGrows | Quests_master/core/gamification.py:39-46 | running events never lowers the XP |
| XpProperties.ThreeEventsExample | Quests_master/core/gamification.py:39-46 | two quests and a boss fight give 26 XP, the first level and three log lines |
| XpProperties.ProgressBelowMax | Quests_master/core/gamification.py:48-62 | below 100 XP the next threshold is strictly above the previous one, and progress lies in [0, 100) |
| XpProperties.ProgressBoundaryValues | Quests_master/core/gamification.py:52-62 | progress is 0 at 0, 50 and 100 XP, and 200 at 102 XP |
| Text.Strip | Quests_master/gui/quest_wizard.py:130 | `strip()` keeps one slice of the text, cutting only whitespace from either end; the result is empty exactly when the text is all whitespace, and otherwise starts and ends with non-whitespace |
| Text.StripIgnoresSurroundingSpace | Quests_master/gui/quest_wizard.py:130 | whitespace added on either side does not change `strip()` |
| Text.DecimalString | Quests_master/core/database.py:92 | the rendering of a natural number is a non-empty digit string with no leading zero ("0" for zero) |
| Text.DecimalRoundTrip | Quests_master/core/database.py:92 | reading the rendered digits back gives the number |
| Text.DecimalInjective | Quests_master/core/database.py:92 | different numbers render differently |
| QuestWizard.SplitOnSpaceRuns | Quests_master/gui/quest_wizard.py:133 | `re.split(r"\s+")` yields at least one piece; no piece contains whitespace, and the pieces together hold the text's non-whitespace characters in order |
| QuestWizard.SplitCountsRuns | Quests_master/gui/quest_wizard.py:133 | on a text ending in non-whitespace, the split gives one piece per word, plus one when the text starts with whitespace |
| QuestWizard.SplitCountsWords | Quests_master/gui/quest_wizard.py:130-133 | on a stripped non-empty text, the split gives exactly one piece per word |
| QuestWizard.WordCountOfStrip | Quests_master/gui/quest_wizard.py:130 | stripping does not change the number of words |
| QuestWizard.CountWords | Quests_master/gui/quest_wizard.py:129-133 | the word count is 0 exactly when the text is empty or all whitespace |
| QuestWizard.CountWordsIsWordCount | Quests_master/gui/quest_wizard.py:129-133 | `_count_words` is the number of maximal non-whitespace runs; it is 0 exactly for empty or whitespace-only text |
| QuestWizard.CountWordsIgnoresSurroundingSpace | Quests_master/gui/quest_wizard.py:129-133 | leading or trailing whitespace does not change the word count |
| QuestWizard.Validate | Quests_master/gui/quest_wizard.py:143-159 | accepts exactly when the stripped title is non-empty and the description counts at least 50 words |
| QuestWizard.ValidateMeaning | Quests_master/gui/quest_wizard.py:143-159 | the form is accepted exactly when the title has a non-whitespace character and the description has at least 50 words |
| QuestWizard.ComboItemsAreTiers | Quests_master/gui/quest_wizard.py:57-60 | the difficulty combo's four items are the four tiers' stored texts in order, and the `CHECK` admits each |
| QuestWizard.AutosaveCall | Quests_master/gui/quest_wizard.py:108-125 | for edits as the widgets report them (the combo reports only its own items), every autosave handler passes a whitelisted column name, and the difficulty handler passes a value the `CHECK` admits |
| QuestWizard.AutosaveNeverRaises | Quests_master/gui/quest_wizard.py:108-125 | for edits as the widgets report them, no autosave handler makes `update_quest_field` raise; on an existing quest the edited value reads back |
| QuestWizard.CreateClicked | Quests_master/gui/quest_wizard.py:163-177 | the quest id and the "create_quest" XP event are emitted exactly when the form is accepted |
| QuestWizard.CreateSignalsXp | Quests_master/gui/quest_wizard.py:176-177 | the two signals of an accepted form are worth 3 XP |
| QuestWizard.ApplySignals | Quests_master/gui/main_window.py:65-66 | handing the emitted signals to `add_event` raises the XP by the worth of the XP-event signals |
| QuestWizard.CreateClickXp | Quests_master/gui/main_window.py:65-66 | pressing "create" earns 3 XP when the form is accepted and nothing otherwise |

## Left out

- Timestamps: `created_at` and `datetime('now')` are not modelled. `get_quest_as_dict` therefore has no `created_at` key.
- SQLite mechanics: connections, commits, row factories and the schema DDL are not modelled. AUTOINCREMENT is a counter, `nextId`; nothing is ever deleted, so ids are never reused.
- Type affinity and NULL: column values are kept exactly as given, as a string or an integer. `NOT NULL` violations are not modelled, because the wizard never passes `None`.
- `LIKE 'Новый квест%'` is a case-sensitive prefix test. The prefix is Cyrillic, and SQLite folds only ASCII case, so the two agree.
- QuestStore.GetLocationsForQuest: returns markers in insertion order. The SQL has no `ORDER BY`, so SQLite does not strictly promise this order.
- Marker coordinates are carried as `real` values. No arithmetic is done on them.
- Gamification.Progress: divides exactly, while the source computes `int((xp - prev) / span * 100)` in floating point. The two can differ by 1: at 29 XP the source gives 57 and this model gives 58.
- The wizard's widgets are not modelled: the 50-character title limit, the 10..10000 reward spin box, the counter label text of `_update_counter`, style sheets and message boxes. Their current contents are parameters.
- Export (`_export`, `template_engine.py`) is not part of this model: Jinja2 rendering, PDF/DOCX writing and the file dialog. The same goes for the "export" XP event's trigger.
- `map_editor.py`, `gamification_panel.py`, `main.py` and the rest of `main_window.py` are Qt display and startup code. Only the hand-off of XP events to `add_event` is modelled.
- Concurrency: the application is single-threaded.

=== FILE: gamification.dfy ===
/** The XP and level engine of `Quests_master/core/gamification.py`: a fixed
    level table, a fixed event-to-XP table, and an accumulator whose level is
    re-derived from its XP after every event. */
module Gamification {
  import opened Text

  /** `LEVELS`, in definition order: a level's name and the XP it starts at. */
  const Levels: seq<(string, int)> := [("Ученик", 0), ("Мастер пергаментов", 50), ("Архимаг документов", 100)]

  /** The level `XPState` starts with and `_recalculate_level` starts its scan from. */
  const StartLevel: string := "Ученик"

  /** `EVENT_XP`. */
  const EventXp: map<string, int> := map["create_quest" := 3, "export" := 2, "save_map" := 5, "boss_fight" := 20]

  /** `EVENT_XP.get(event, 0)`: known events earn their configured XP, any other
      name earns nothing. */
  function Delta(event: string): (d: int)
    ensures d >= 0
    ensures d > 0 <==> event in EventXp
    ensures event in EventXp ==> d == EventXp[event]
  {
    if event in EventXp then EventXp[event] else 0
  }

  /** `XPState`: accumulated XP, current level name, and the achievement log. */
  datatype XpState = XpState(xp: int, level: string, achievements: seq<string>)

  /** A fresh `XPManager`'s state. */
  const Initial: XpState := XpState(0, StartLevel, [])

  /** The loop of `_recalculate_level`: walk the table in definition order and
      keep the name of every entry whose threshold the XP reaches. */
  function ScanLevels(levels: seq<(string, int)>, xp: int, level: string): (r: string)
    ensures r == level || exists i :: 0 <= i < |levels| && levels[i].1 <= xp && r == levels[i].0
    decreases |levels|
  {
    if levels == [] then level
    else
      assert forall i :: 1 <= i < |levels| ==> levels[1..][i - 1] == levels[i];
      ScanLevels(levels[1..], xp, if xp >= levels[0].1 then levels[0].0 else level)
  }

  /** The level `_recalculate_level` assigns to an XP total: the starting level
      or the name of a level whose threshold the XP reaches. */
  function LevelOf(xp: int): (r: string)
    ensures r == StartLevel || exists i :: 0 <= i < |Levels| && Levels[i].1 <= xp && r == Levels[i].0
  {
    ScanLevels(Levels, xp, StartLevel)
  }

  /** The text `add_event` logs: `f"+{delta} XP: {event}"`. */
  function AchievementText(delta: nat, event: string): string {
    "+" + DecimalString(delta) + " XP: " + event
  }

  /** `add_event`: add the event's XP, re-derive the level, log the gain when
      it is positive, and return the new XP and level with the new state. */
  function AddEvent(st: XpState, event: string): (r: (XpState, (int, string)))
    ensures r.0.xp == st.xp + Delta(event)
    ensures r.0.xp >= st.xp
    ensures r.0.level == LevelOf(r.0.xp)
    ensures Delta(event) > 0 ==> r.0.achievements == st.achievements + [AchievementText(Delta(event), event)]
    ensures Delta(event) <= 0 ==> r.0.achievements == st.achievements
    ensures r.1 == (r.0.xp, r.0.level)
  {
    var delta := Delta(event);
    var xp := st.xp + delta;
    var recalculated := st.(xp := xp, level := LevelOf(xp));
    var logged := if delta > 0 then recalculated.(achievements := st.achievements + [AchievementText(delta, event)])
                  else recalculated;
    (logged, (logged.xp, logged.level))
  }

  /** `sorted(LEVELS.values())`: the thresholds in definition order, which is
      already ascending. */
  function Thresholds(): (ts: seq<int>)
    ensures |ts| == |Levels|
    ensures forall i :: 0 <= i < |ts| ==> ts[i] == Levels[i].1
    ensures forall i, j :: 0 <= i < j < |ts| ==> ts[i] < ts[j]
  {
    [Levels[0].1, Levels[1].1, Levels[2].1]
  }

  /** The first loop of `get_progress_to_next_level`: the first threshold above
      the XP, or `fallback` (the last threshold) when there is none. */
  function NextThreshold(ts: seq<int>, xp: int, fallback: int): (n: int)
    ensures forall k :: 0 <= k < |ts| && ts[k] > xp && (forall j :: 0 <= j < k ==> ts[j] <= xp) ==> n == ts[k]
    ensures (forall i :: 0 <= i < |ts| ==> ts[i] <= xp) ==> n == fallback
    decreases |ts|
  {
    if ts == [] then fallback
    else if ts[0] > xp then ts[0]
    else
      assert forall i :: 1 <= i < |ts| ==> ts[1..][i - 1] == ts[i];
      NextThreshold(ts[1..], xp, fallback)
  }

  /** The second loop: the last threshold the XP reaches, or `prev` (0) when
      none does. */
  function PrevThreshold(ts: seq<int>, xp: int, prev: int): (p: int)
    ensures forall k :: 0 <= k < |ts| && ts[k] <= xp && (forall j :: k < j < |ts| ==> ts[j] > xp) ==> p == ts[k]
    ensures (forall i :: 0 <= i < |ts| ==> ts[i] > xp) ==> p == prev
    decreases |ts|
  {
    if ts == [] then prev
    else
      assert forall i :: 1 <= i < |ts| ==> ts[1..][i - 1] == ts[i];
      PrevThreshold(ts[1..], xp, if ts[0] <= xp then ts[0] else prev)
  }

  /** Python's `int()` of an exact quotient: division rounding toward zero, so
      the remainder takes the sign of the dividend and is smaller than the
      divisor. */
  function TruncDiv(a: int, b: int): (q: int)
    requires b > 0
    ensures a >= 0 ==> 0 <= a - q * b < b
    ensures a < 0 ==> -b < a - q * b <= 0
  {
    if a >= 0 then a / b else -((-a) / b)
  }

  /** `get_progress_to_next_level`: how far, in percent, the XP has come from
      the threshold it last reached towards the next one. The source divides in
      floating point before scaling; this model divides exactly. */
  function Progress(xp: int): (r: int)
    ensures xp < 0 ==> r == xp * 100
    ensures 0 <= xp < 50 ==> r == 2 * xp
    ensures 50 <= xp < 100 ==> r == 2 * (xp - 50)
    ensures 100 <= xp ==> r == (xp - 100) * 100
  {
    var ts := Thresholds();
    var next := NextThreshold(ts, xp, ts[|ts| - 1]);
    var prev := PrevThreshold(ts, xp, 0);
    ThresholdsAround(xp);
    var span := if next - prev > 1 then next - prev else 1;
    SpanQuotient(xp - prev, span);
    TruncDiv((xp - prev) * 100, span)
  }

  /** The quotient for the two spans the level table produces: 50 halves the
      percentage numerator exactly, and 1 leaves it as it is. */
  lemma SpanQuotient(d: int, span: int)
    requires span == 1 || span == 50
    ensures span == 1 ==> TruncDiv(d * 100, span) == d * 100
    ensures span == 50 ==> TruncDiv(d * 100, span) == 2 * d
  {
    if span == 1 {
      assert TruncDiv(d * 100, 1) == d * 100;
    } else {
      assert TruncDiv(d * 100, 50) == 2 * d;
    }
  }

  /** The thresholds `get_progress_to_next_level` finds around an XP total, band
      by band: above the last threshold both are 100. */
  lemma ThresholdsAround(xp: int)
    ensures var ts := Thresholds();
            var next := NextThreshold(ts, xp, ts[|ts| - 1]);
            var prev := PrevThreshold(ts, xp, 0);
            && (xp < 0 ==> next == 0 && prev == 0)
            && (0 <= xp < 50 ==> next == 50 && prev == 0)
            && (50 <= xp < 100 ==> next == 100 && prev == 50)
            && (100 <= xp ==> next == 100 && prev == 100)
  {
    var ts := Thresholds();
    assert ts == [0, 50, 100];
    if xp < 0 {
      assert ts[0] > xp;
    } else if xp < 50 {
      assert ts[1] > xp && ts[0] <= xp;
    } else if xp < 100 {
      assert ts[2] > xp && ts[1] <= xp;
    } else {
      assert ts[2] <= xp;
    }
  }
}

=== FILE: quest_store.dfy ===
/** The quest store of `Quests_master/core/database.py`: the `quests` table as a
    map from id to record, the `quest_versions` table as an append-only
    sequence of whole-record snapshots, and the `quest_locations` table as an
    append-only sequence of map markers. SQLite itself is replaced by this
    immutable state; every operation is a pure function from state to state. */
module QuestStore {
  import opened Results
  import opened Text

  /** A value handed to the store for a column; SQLite keeps it as given. */
  datatype Value = Str(s: string) | Num(n: int)

  /** The four tiers the `CHECK(difficulty IN (...))` constraint admits. */
  datatype Difficulty = Easy | Medium | Hard | Epic

  /** The stored spelling of each tier. */
  function DifficultyName(d: Difficulty): string {
    match d
    case Easy => "Легкий"
    case Medium => "Средний"
    case Hard => "Сложный"
    case Epic => "Эпический"
  }

  /** The `CHECK` constraint on `quests.difficulty`: a value is admitted exactly
      when it is the text of one of the four tiers. */
  function ParseDifficulty(v: Value): (r: Option<Difficulty>)
    ensures r.Some? ==> v == Str(DifficultyName(r.value))
    ensures r.None? ==> forall d: Difficulty :: v != Str(DifficultyName(d))
  {
    if v == Str(DifficultyName(Easy)) then Some(Easy)
    else if v == Str(DifficultyName(Medium)) then Some(Medium)
    else if v == Str(DifficultyName(Hard)) then Some(Hard)
    else if v == Str(DifficultyName(Epic)) then Some(Epic)
    else None
  }

  /** A row of `quests` (the `created_at` timestamp is not modelled). */
  datatype Quest = Quest(
    id: int,
    title: Value,
    difficulty: Difficulty,
    reward: Value,
    description: Value,
    deadline: Value)

  /** A row of `quest_versions`: the quest's title, difficulty, reward and
      description at one moment (the deadline is not part of a snapshot). */
  datatype Version = Version(
    questId: int,
    title: Value,
    difficulty: Difficulty,
    reward: Value,
    description: Value)

  /** A row of `quest_locations`; the coordinates are carried, never computed on.
      The `label` column is named `caption` here, because `label` is a Dafny
      keyword. */
  datatype Location = Location(
    id: int,
    questId: int,
    x: real,
    y: real,
    kind: string,
    caption: string)

  /** The three tables, plus the next AUTOINCREMENT id of `quests`. */
  datatype Store = Store(
    quests: map<int, Quest>,
    versions: seq<Version>,
    locations: seq<Location>,
    nextId: int)

  /** What `update_quest_field` raises: the `ValueError` for a name outside the
      whitelist, and the integrity error of the difficulty `CHECK`. */
  datatype StoreError = UnknownField(field: string) | DifficultyRejected(value: Value)

  /** A freshly created database. */
  const Empty: Store := Store(map[], [], [], 1)

  /** The default title of a draft, and the prefix drafts are counted by. */
  const DraftPrefix: string := "Новый квест"

  /** The reward a draft starts with. */
  const DraftReward: int := 10

  /** The column names `update_quest_field` accepts. */
  const UpdatableFields: set<string> := {"title", "difficulty", "reward", "description", "deadline"}

  /** The elements of `xs` that `keep` accepts, in their original order. */
  function Select<T>(xs: seq<T>, keep: T -> bool): (r: seq<T>)
    ensures |r| <= |xs|
    ensures forall x :: x in r ==> x in xs && keep(x)
    ensures forall i :: 0 <= i < |xs| && keep(xs[i]) ==> xs[i] in r
  {
    if xs == [] then []
    else
      var init := Select(xs[..|xs| - 1], keep);
      var last := xs[|xs| - 1];
      assert forall i :: 0 <= i < |xs| - 1 ==> xs[i] == xs[..|xs| - 1][i];
      if keep(last) then init + [last] else init
  }

  /** Selecting from a sequence with one more element at the end. */
  lemma SelectAppend<T>(xs: seq<T>, x: T, keep: T -> bool)
    ensures Select(xs + [x], keep) == Select(xs, keep) + (if keep(x) then [x] else [])
  {
    assert (xs + [x])[..|xs|] == xs;
  }

  /** Nothing is selected from a sequence none of whose elements is kept. */
  lemma SelectNone<T>(xs: seq<T>, keep: T -> bool)
    requires forall i :: 0 <= i < |xs| ==> !keep(xs[i])
    ensures Select(xs, keep) == []
  {
    if xs != [] {
      var init := xs[..|xs| - 1];
      assert forall i :: 0 <= i < |init| ==> init[i] == xs[i];
      SelectNone(init, keep);
    }
  }

  /** The value a record holds under a whitelisted column name. */
  function FieldOf(q: Quest, field: string): Value
    requires field in UpdatableFields
  {
    match field
    case "title" => q.title
    case "difficulty" => Str(DifficultyName(q.difficulty))
    case "reward" => q.reward
    case "description" => q.description
    case _ => q.deadline
  }

  /** `UPDATE quests SET <field> = ?` on one record whose new value passed the
      `CHECK`: that column takes the value, every other column keeps its own. */
  function SetField(q: Quest, field: string, v: Value): (r: Quest)
    requires field in UpdatableFields
    requires field == "difficulty" ==> ParseDifficulty(v).Some?
    ensures r.id == q.id
    ensures FieldOf(r, field) == v
    ensures forall f :: f in UpdatableFields && f != field ==> FieldOf(r, f) == FieldOf(q, f)
  {
    match field
    case "title" => q.(title := v)
    case "difficulty" => q.(difficulty := ParseDifficulty(v).value)
    case "reward" => q.(reward := v)
    case "description" => q.(description := v)
    case _ => q.(deadline := v)
  }

  /** The snapshot row `_snapshot_version` writes for a record. */
  function SnapshotOf(q: Quest): (v: Version)
    ensures v.questId == q.id
  {
    Version(q.id, q.title, q.difficulty, q.reward, q.description)
  }

  /** The snapshots of one quest, oldest first. */
  function VersionsOf(vs: seq<Version>, id: int): seq<Version> {
    Select(vs, (v: Version) => v.questId == id)
  }

  /** How many snapshots a quest has. */
  function VersionCount(s: Store, id: int): nat {
    |VersionsOf(s.versions, id)|
  }

  /** The most recent snapshot of a quest, if any. */
  function LatestVersion(vs: seq<Version>, id: int): Option<Version> {
    var h := VersionsOf(vs, id);
    if h == [] then None else Some(h[|h| - 1])
  }

  /** A title `LIKE 'Новый квест%'`: text beginning with the draft prefix. The
      prefix has no ASCII letters, so SQLite's ASCII case folding plays no part. */
  predicate IsDraftTitle(v: Value) {
    v.Str? && DraftPrefix <= v.s
  }

  /** The ids whose title carries the draft prefix. */
  function DraftIds(s: Store): set<int> {
    set id | id in s.quests && IsDraftTitle(s.quests[id].title)
  }

  /** `SELECT COUNT(*) FROM quests WHERE title LIKE 'Новый квест%'`. */
  function CountDraftTitles(s: Store): (n: nat)
    ensures n == 0 <==> forall id :: id in s.quests ==> !IsDraftTitle(s.quests[id].title)
  {
    if forall id :: id in s.quests ==> !IsDraftTitle(s.quests[id].title) then
      assert DraftIds(s) == {};
      |DraftIds(s)|
    else
      var id :| id in s.quests && IsDraftTitle(s.quests[id].title);
      assert id in DraftIds(s);
      |DraftIds(s)|
  }

  /** The title `create_draft_quest` picks when `count` titles already carry
      the draft prefix: the bare prefix for none, otherwise `#` and count + 1.
      Reading the digits after the prefix and `" #"` back gives count + 1. */
  function DraftTitle(count: nat): (t: string)
    ensures DraftPrefix <= t
    ensures t == DraftPrefix <==> count == 0
    ensures count > 0 ==> |t| > |DraftPrefix| + 2
                          && t[|DraftPrefix|..|DraftPrefix| + 2] == " #"
                          && AllDigits(t[|DraftPrefix| + 2..])
                          && DecimalValue(t[|DraftPrefix| + 2..]) == count + 1
                          && t[|DraftPrefix| + 2] != '0'
  {
    if count == 0 then DraftPrefix
    else
      var t := DraftPrefix + " #" + DecimalString(count + 1);
      DecimalRoundTrip(count + 1);
      assert t[|DraftPrefix| + 2..] == DecimalString(count + 1);
      t
  }

  /** The state invariant every reachable store keeps. */
  ghost predicate Valid(s: Store) {
    && s.nextId >= 1
    && IdsIssued(s)
    && VersionsOwned(s)
    && LatestIsCurrent(s)
    && (forall i :: 0 <= i < |s.locations| ==> s.locations[i].id == i + 1)
  }

  /** Every record sits under its own id, and that id was issued by the counter. */
  ghost predicate IdsIssued(s: Store) {
    forall id :: id in s.quests ==> 1 <= id < s.nextId && s.quests[id].id == id
  }

  /** Every version belongs to an existing record. */
  ghost predicate VersionsOwned(s: Store) {
    forall i :: 0 <= i < |s.versions| ==> s.versions[i].questId in s.quests
  }

  /** The newest version of every record is a snapshot of its current fields. */
  ghost predicate LatestIsCurrent(s: Store) {
    forall id :: id in s.quests ==> LatestVersion(s.versions, id) == Some(SnapshotOf(s.quests[id]))
  }

  /** `_snapshot_version`: append the record's current snapshot, or do nothing
      when the id has no record. */
  function Snapshot(s: Store, id: int): (r: Store)
    ensures r.quests == s.quests && r.locations == s.locations && r.nextId == s.nextId
    ensures id !in s.quests ==> r.versions == s.versions
    ensures id in s.quests ==> r.versions == s.versions + [SnapshotOf(s.quests[id])]
  {
    if id !in s.quests then s
    else s.(versions := s.versions + [SnapshotOf(s.quests[id])])
  }

  /** `create_draft_quest`: insert a record under the next id with the
      disambiguated default title, the easiest tier, reward 10, an empty
      description and deadline, then snapshot it. Returns the new state and id. */
  function CreateDraft(s: Store): (r: (Store, int))
    ensures r.1 == s.nextId && r.0.nextId == s.nextId + 1
    ensures r.0.quests.Keys == s.quests.Keys + {r.1}
    ensures forall id :: id in s.quests && id != r.1 ==> r.0.quests[id] == s.quests[id]
    ensures r.0.quests[r.1].id == r.1
    ensures r.0.quests[r.1].title == Str(DraftTitle(CountDraftTitles(s)))
    ensures r.0.quests[r.1].difficulty == Easy
    ensures r.0.quests[r.1].reward == Num(DraftReward)
    ensures r.0.quests[r.1].description == Str("") && r.0.quests[r.1].deadline == Str("")
    ensures r.0.versions == s.versions + [SnapshotOf(r.0.quests[r.1])]
    ensures r.0.locations == s.locations
  {
    var title := DraftTitle(CountDraftTitles(s));
    var id := s.nextId;
    var inserted := s.(quests := s.quests[id := Quest(id, Str(title), Easy, Num(DraftReward), Str(""), Str(""))],
                       nextId := id + 1);
    (Snapshot(inserted, id), id)
  }

  /** `update_quest_field`: reject a name outside the whitelist before touching
      anything; an id with no record updates zero rows and writes no snapshot;
      a difficulty outside the four tiers fails the `CHECK`; otherwise the one
      column is written and a whole-record snapshot is appended. */
  function UpdateField(s: Store, id: int, field: string, value: Value): (r: Result<Store, StoreError>)
    ensures field !in UpdatableFields ==> r == Failure(UnknownField(field))
    ensures r.Failure? <==>
              || field !in UpdatableFields
              || (id in s.quests && field == "difficulty" && ParseDifficulty(value).None?)
    ensures r.Success? && id !in s.quests ==> r.value == s
    ensures r.Success? && id in s.quests ==>
              && r.value.quests.Keys == s.quests.Keys
              && r.value.nextId == s.nextId
              && r.value.locations == s.locations
              && (forall k :: k in s.quests && k != id ==> r.value.quests[k] == s.quests[k])
              && r.value.quests[id].id == s.quests[id].id
              && FieldOf(r.value.quests[id], field) == value
              && (forall f :: f in UpdatableFields && f != field ==>
                    FieldOf(r.value.quests[id], f) == FieldOf(s.quests[id], f))
              && r.value.versions == s.versions + [SnapshotOf(r.value.quests[id])]
  {
    if field !in UpdatableFields then Failure(UnknownField(field))
    else if id !in s.quests then Success(Snapshot(s, id))
    else if field == "difficulty" && ParseDifficulty(value).None? then Failure(DifficultyRejected(value))
    else
      var written := s.(quests := s.quests[id := SetField(s.quests[id], field, value)]);
      Success(Snapshot(written, id))
  }

  /** `get_quest`: the record under `id`, or none. */
  function GetQuest(s: Store, id: int): (r: Option<Quest>)
    ensures r.None? <==> id !in s.quests
    ensures r.Some? ==> r.value == s.quests[id]
  {
    if id in s.quests then Some(s.quests[id]) else None
  }

  /** `get_quest_as_dict`: the record as a column-name to value dictionary
      (without `created_at`), or none. */
  function GetQuestAsDict(s: Store, id: int): (r: Option<map<string, Value>>)
    ensures r.None? <==> id !in s.quests
    ensures r.Some? ==> r.value.Keys == UpdatableFields + {"id"}
    ensures r.Some? ==> r.value["id"] == Num(s.quests[id].id)
    ensures r.Some? ==> forall f :: f in UpdatableFields ==> r.value[f] == FieldOf(s.quests[id], f)
  {
    match GetQuest(s, id)
    case None => None
    case Some(q) =>
      Some(map["id" := Num(q.id), "title" := q.title, "difficulty" := Str(DifficultyName(q.difficulty)),
               "reward" := q.reward, "description" := q.description, "deadline" := q.deadline])
  }

  /** `add_location`: append a marker under the next row id. Foreign keys are
      not enforced, so the quest id is not checked. */
  function AddLocation(s: Store, questId: int, x: real, y: real, kind: string, caption: string): (r: Store)
    ensures r.quests == s.quests && r.versions == s.versions && r.nextId == s.nextId
    ensures |r.locations| == |s.locations| + 1
    ensures r.locations[..|s.locations|] == s.locations
    ensures r.locations[|s.locations|] == Location(|s.locations| + 1, questId, x, y, kind, caption)
  {
    s.(locations := s.locations + [Location(|s.locations| + 1, questId, x, y, kind, caption)])
  }

  /** `get_locations_for_quest`: every marker of one quest. The SQL has no
      `ORDER BY`; this model returns them in insertion order. The source's rows
      carry no `quest_id` key; the rows here carry `questId`, which always
      equals the argument. */
  function GetLocationsForQuest(s: Store, questId: int): (r: seq<Location>)
    ensures forall l :: l in r <==> l in s.locations && l.questId == questId
  {
    Select(s.locations, (l: Location) => l.questId == questId)
  }
}

=== FILE: quest_trace.dfy ===
/** Sequences of store calls, as the wizard and the map editor issue them, and
    the properties that hold over whole sequences: the invariant is kept, the
    tables only grow, and each quest has one snapshot per accepted update plus
    the one written at creation. */
module QuestTrace {
  import opened Results
  import opened QuestStore
  import opened StoreInvariants

  /** One call into the store. */
  datatype Command =
    | CreateDraftCmd
    | UpdateCmd(id: int, field: string, value: Value)
    | AddLocationCmd(questId: int, x: real, y: real, kind: string, caption: string)

  /** The state after one call; a call that raises leaves every table as it was. */
  function Step(s: Store, c: Command): Store {
    match c
    case CreateDraftCmd => CreateDraft(s).0
    case UpdateCmd(id, field, value) =>
      (match UpdateField(s, id, field, value)
       case Success(t) => t
       case Failure(_) => s)
    case AddLocationCmd(questId, x, y, kind, caption) => AddLocation(s, questId, x, y, kind, caption)
  }

  /** The state after a sequence of calls, first call first. */
  function Run(s: Store, cs: seq<Command>): Store
    decreases |cs|
  {
    if cs == [] then s else Run(Step(s, cs[0]), cs[1..])
  }

  /** The call is an update of quest `q` that exists and is accepted. */
  predicate AcceptedOn(s: Store, c: Command, q: int) {
    c.UpdateCmd? && c.id == q && q in s.quests && UpdateField(s, c.id, c.field, c.value).Success?
  }

  /** How many calls of `cs`, run from `s`, are accepted updates of quest `q`. */
  function AcceptedUpdates(s: Store, cs: seq<Command>, q: int): nat
    decreases |cs|
  {
    if cs == [] then 0
    else (if AcceptedOn(s, cs[0], q) then 1 else 0) + AcceptedUpdates(Step(s, cs[0]), cs[1..], q)
  }

  /** Every call keeps the store invariant. */
  lemma StepPreservesValid(s: Store, c: Command)
    requires Valid(s)
    ensures Valid(Step(s, c))
  {
    match c
    case CreateDraftCmd => CreateDraftPreservesValid(s);
    case UpdateCmd(id, field, value) =>
      if UpdateField(s, id, field, value).Success? {
        UpdateFieldPreservesValid(s, id, field, value);
      }
    case AddLocationCmd(questId, x, y, kind, caption) =>
      AddLocationPreservesValid(s, questId, x, y, kind, caption);
  }

  /** Every sequence of calls keeps the store invariant. */
  lemma {:induction false} RunPreservesValid(s: Store, cs: seq<Command>)
    requires Valid(s)
    ensures Valid(Run(s, cs))
    decreases |cs|
  {
    if cs != [] {
      StepPreservesValid(s, cs[0]);
      RunPreservesValid(Step(s, cs[0]), cs[1..]);
    }
  }

  /** Records are never removed, and the snapshot and marker tables are only
      appended to. */
  lemma {:induction false} RunOnlyAppends(s: Store, cs: seq<Command>)
    ensures s.quests.Keys <= Run(s, cs).quests.Keys
    ensures s.versions <= Run(s, cs).versions
    ensures s.locations <= Run(s, cs).locations
    decreases |cs|
  {
    if cs != [] {
      RunOnlyAppends(Step(s, cs[0]), cs[1..]);
    }
  }

  /** One call adds a snapshot to `q` exactly when it creates `q` or is an
      accepted update of `q`. */
  lemma StepVersionCount(s: Store, c: Command, q: int)
    requires Valid(s)
    ensures s.quests.Keys <= Step(s, c).quests.Keys
    ensures VersionCount(Step(s, c), q)
            == VersionCount(s, q)
               + (if q in Step(s, c).quests && q !in s.quests then 1 else 0)
               + (if AcceptedOn(s, c, q) then 1 else 0)
  {
    match c
    case CreateDraftCmd =>
      DraftHasOneVersion(s);
      if q == s.nextId {
        NoVersionsWithoutQuest(s, q);
      }
    case UpdateCmd(id, field, value) =>
      if UpdateField(s, id, field, value).Success? {
        UpdateVersionCount(s, id, field, value, q);
      }
    case AddLocationCmd(questId, x, y, kind, caption) =>
  }

  /** Over any sequence of calls, a quest gains one snapshot when it is created
      and one for each accepted update, and no others. */
  lemma {:induction false} RunVersionCount(s: Store, cs: seq<Command>, q: int)
    requires Valid(s)
    ensures VersionCount(Run(s, cs), q)
            == VersionCount(s, q)
               + (if q in Run(s, cs).quests && q !in s.quests then 1 else 0)
               + AcceptedUpdates(s, cs, q)
    decreases |cs|
  {
    if cs != [] {
      var s1 := Step(s, cs[0]);
      StepVersionCount(s, cs[0], q);
      StepPreservesValid(s, cs[0]);
      RunVersionCount(s1, cs[1..], q);
      RunOnlyAppends(s1, cs[1..]);
    }
  }

  /** From an empty database: every quest has exactly 1 + (accepted updates of
      it) snapshots, and an id without a quest has none. */
  lemma VersionCountFromEmpty(cs: seq<Command>, q: int)
    ensures q in Run(Empty, cs).quests ==> VersionCount(Run(Empty, cs), q) == 1 + AcceptedUpdates(Empty, cs, q)
    ensures q !in Run(Empty, cs).quests ==> VersionCount(Run(Empty, cs), q) == 0
  {
    EmptyIsValid();
    RunVersionCount(Empty, cs, q);
    RunPreservesValid(Empty, cs);
    if q !in Run(Empty, cs).quests {
      NoVersionsWithoutQuest(Run(Empty, cs), q);
    }
  }

  /** The marker calls in `cs` are all for quest `q`. */
  predicate AllMarkersFor(cs: seq<Command>, q: int) {
    forall i :: 0 <= i < |cs| ==> cs[i].AddLocationCmd? && cs[i].questId == q
  }

  /** The rows k marker calls for quest `q` write when `base` rows already exist:
      one per call, in call order, with ids base + 1, base + 2, ... */
  function MarkerRows(cs: seq<Command>, q: int, base: nat): (r: seq<Location>)
    requires AllMarkersFor(cs, q)
    ensures |r| == |cs|
    decreases |cs|
  {
    if cs == [] then []
    else
      var c := cs[0];
      [Location(base + 1, q, c.x, c.y, c.kind, c.caption)] + MarkerRows(cs[1..], q, base + 1)
  }

  /** Row i of k marker calls carries call i's coordinates, kind and label and the id base + i + 1. */
  lemma {:induction false} MarkerRowsAt(cs: seq<Command>, q: int, base: nat, i: nat)
    requires AllMarkersFor(cs, q) && i < |cs|
    ensures MarkerRows(cs, q, base)[i] == Location(base + i + 1, q, cs[i].x, cs[i].y, cs[i].kind, cs[i].caption)
    decreases |cs|
  {
    if i > 0 {
      MarkerRowsAt(cs[1..], q, base + 1, i - 1);
    }
  }

  /** After k marker calls for one quest, its list is the old list followed by
      exactly k new rows, in call order, none merged with another. */
  lemma {:induction false} MarkersListedInCallOrder(s: Store, cs: seq<Command>, q: int)
    requires AllMarkersFor(cs, q)
    ensures GetLocationsForQuest(Run(s, cs), q)
            == GetLocationsForQuest(s, q) + MarkerRows(cs, q, |s.locations|)
    decreases |cs|
  {
    if cs != [] {
      var c := cs[0];
      var rest := cs[1..];
      assert c.AddLocationCmd? && c.questId == q;
      assert AllMarkersFor(rest, q) by {
        forall i | 0 <= i < |rest| ensures rest[i].AddLocationCmd? && rest[i].questId == q {
          assert rest[i] == cs[i + 1];
        }
      }
      var s1 := AddLocation(s, q, c.x, c.y, c.kind, c.caption);
      var row := Location(|s.locations| + 1, q, c.x, c.y, c.kind, c.caption);
      var tail := MarkerRows(rest, q, |s.locations| + 1);
      calc {
        GetLocationsForQuest(Run(s, cs), q);
        { assert Step(s, c) == s1; }
        GetLocationsForQuest(Run(s1, rest), q);
        { MarkersListedInCallOrder(s1, rest, q); }
        GetLocationsForQuest(s1, q) + tail;
        { AddLocationThenList(s, q, c.x, c.y, c.kind, c.caption, q); }
        (GetLocationsForQuest(s, q) + [row]) + tail;
        GetLocationsForQuest(s, q) + ([row] + tail);
      }
    }
  }
}

=== FILE: quest_wizard.dfy ===
/** The pure logic of `Quests_master/gui/quest_wizard.py`: the word counter,
    the accept/reject rule of the form, the store calls the autosave handlers
    make, and the signals the "create" button emits. The widgets themselves are
    not modelled; their current contents are parameters. */
module QuestWizard {
  import opened Text
  import opened QuestStore
  import StoreInvariants
  import Gamification

  /** The words a description needs before the form is accepted. */
  const MinWords: nat := 50

  /** `re.split(r"\s+", t)`: the pieces between maximal whitespace runs,
      with an empty first or last piece when `t` starts or ends with
      whitespace. Read one character at a time: a non-whitespace character
      joins the first piece of the rest, a whitespace character followed by
      more whitespace belongs to the same run, and one that ends a run starts
      a new (so far empty) piece. */
  function SplitOnSpaceRuns(t: string): (r: seq<string>)
    ensures |r| >= 1
    ensures forall k :: 0 <= k < |r| ==> NoSpace(r[k])
    ensures Concat(r) == Squeeze(t)
    decreases |t|
  {
    if t == [] then [""]
    else
      var rest := SplitOnSpaceRuns(t[1..]);
      if !IsSpace(t[0]) then [[t[0]] + rest[0]] + rest[1..]
      else if |t| > 1 && IsSpace(t[1]) then rest
      else [""] + rest
  }

  /** The pieces of a split laid end to end. */
  function Concat(pieces: seq<string>): string
    decreases |pieces|
  {
    if pieces == [] then [] else pieces[0] + Concat(pieces[1..])
  }

  /** The non-whitespace characters of `t`, in order. */
  function Squeeze(t: string): string
    decreases |t|
  {
    if t == [] then [] else (if IsSpace(t[0]) then [] else [t[0]]) + Squeeze(t[1..])
  }

  /** `_count_words`: strip the text, then count the pieces `re.split` gives;
      a blank text has no words. */
  function CountWords(text: string): (r: nat)
    ensures r == 0 <==> AllSpace(text)
  {
    var t := Strip(text);
    if t == [] then 0 else |SplitOnSpaceRuns(t)|
  }

  /** The number of maximal whitespace-free runs in `s`, given whether the
      character before it was whitespace (or `s` is at the start of the text). */
  function RunStarts(s: string, afterSpace: bool): nat
    decreases |s|
  {
    if s == [] then 0
    else (if afterSpace && !IsSpace(s[0]) then 1 else 0) + RunStarts(s[1..], IsSpace(s[0]))
  }

  /** The number of words of a text: its maximal runs of non-whitespace. */
  function WordCount(s: string): nat {
    RunStarts(s, true)
  }

  /** Counting runs across a concatenation. */
  lemma {:induction false} RunStartsConcat(a: string, b: string, f: bool)
    ensures RunStarts(a + b, f) == RunStarts(a, f) + RunStarts(b, if a == [] then f else IsSpace(a[|a| - 1]))
    decreases |a|
  {
    if a != [] {
      assert (a + b)[1..] == a[1..] + b;
      RunStartsConcat(a[1..], b, IsSpace(a[0]));
    } else {
      assert a + b == b;
    }
  }

  /** Whitespace holds no run. */
  lemma {:induction false} RunStartsAllSpace(a: string, f: bool)
    requires AllSpace(a)
    ensures RunStarts(a, f) == 0
    decreases |a|
  {
    if a != [] {
      assert forall i :: 0 <= i < |a| - 1 ==> a[1..][i] == a[i + 1];
      RunStartsAllSpace(a[1..], true);
    }
  }

  /** On a non-empty text that ends in a non-whitespace character, `re.split`
      gives one piece per word, plus an empty first piece when the text starts
      with whitespace. */
  lemma {:induction false} SplitCountsRuns(t: string)
    requires t != [] && !IsSpace(t[|t| - 1])
    ensures |SplitOnSpaceRuns(t)| == WordCount(t) + (if IsSpace(t[0]) then 1 else 0)
    decreases |t|
  {
    if |t| > 1 {
      var u := t[1..];
      assert u[|u| - 1] == t[|t| - 1];
      assert u[0] == t[1];
      SplitCountsRuns(u);
      var rest := SplitOnSpaceRuns(u);
      assert RunStarts(t, true) == (if IsSpace(t[0]) then 0 else 1) + RunStarts(u, IsSpace(t[0]));
      assert RunStarts(u, false) + (if IsSpace(u[0]) then 0 else 1) == RunStarts(u, true);
      if !IsSpace(t[0]) {
        assert |SplitOnSpaceRuns(t)| == |rest|;
      } else if IsSpace(t[1]) {
        assert |SplitOnSpaceRuns(t)| == |rest|;
      } else {
        assert |SplitOnSpaceRuns(t)| == 1 + |rest|;
      }
    } else {
      assert t[1..] == [];
      assert RunStarts(t, true) == 1 + RunStarts(t[1..], false);
    }
  }

  /** On a stripped, non-empty text, `re.split` gives one piece per word. */
  lemma SplitCountsWords(t: string)
    requires t != [] && !IsSpace(t[0]) && !IsSpace(t[|t| - 1])
    ensures |SplitOnSpaceRuns(t)| == WordCount(t)
  {
    SplitCountsRuns(t);
  }

  /** Dropping leading whitespace leaves the runs as they were. */
  lemma {:induction false} RunStartsStripLeading(s: string)
    ensures RunStarts(StripLeading(s), true) == RunStarts(s, true)
    decreases |s|
  {
    if s != [] && IsSpace(s[0]) {
      RunStartsStripLeading(s[1..]);
    }
  }

  /** Dropping trailing whitespace leaves the runs as they were. */
  lemma RunStartsStripTrailing(s: string, f: bool)
    ensures RunStarts(StripTrailing(s), f) == RunStarts(s, f)
  {
    var r := StripTrailing(s);
    var trail := s[|r|..];
    TrailingGapIsSpace(s);
    assert s == r + trail;
    RunStartsConcat(r, trail, f);
    RunStartsAllSpace(trail, if r == [] then f else IsSpace(r[|r| - 1]));
  }

  /** Stripping a text does not change how many words it has. */
  lemma WordCountOfStrip(text: string)
    ensures WordCount(Strip(text)) == WordCount(text)
  {
    RunStartsStripLeading(text);
    RunStartsStripTrailing(StripLeading(text), true);
  }

  /** `_count_words` counts the maximal whitespace-free runs of the text: 0 for
      an empty or blank text, at least 1 otherwise. */
  lemma CountWordsIsWordCount(text: string)
    ensures CountWords(text) == WordCount(text)
    ensures AllSpace(text) <==> CountWords(text) == 0
  {
    WordCountOfStrip(text);
    var t := Strip(text);
    if t == [] {
      RunStartsAllSpace(text, true);
    } else {
      SplitCountsWords(t);
    }
  }

  /** Whitespace added or removed around a text leaves its word count alone. */
  lemma CountWordsIgnoresSurroundingSpace(a: string, s: string, b: string)
    requires AllSpace(a) && AllSpace(b)
    ensures CountWords(a + s + b) == CountWords(s)
  {
    StripIgnoresSurroundingSpace(a, s, b);
  }

  /** `_validate_fields`: the form is accepted when the stripped title is not
      empty and the description has at least 50 words. */
  function Validate(title: string, description: string): (ok: bool)
    ensures ok <==> !AllSpace(title) && CountWords(description) >= MinWords
  {
    Strip(title) != [] && CountWords(description) >= MinWords
  }

  /** The form is accepted exactly when the title has a non-whitespace
      character and the description has at least 50 maximal whitespace-free runs. */
  lemma ValidateMeaning(title: string, description: string)
    ensures Validate(title, description) <==> !AllSpace(title) && WordCount(description) >= 50
  {
    CountWordsIsWordCount(description);
  }

  /** The items of the difficulty combo box, in the order they are added. */
  const DifficultyItems: seq<string> := ["Легкий", "Средний", "Сложный", "Эпический"]

  /** A change the user makes in one of the wizard's five inputs, carrying what
      the widget reports: the text of a line edit, text box or combo box, the
      value of the spin box, or the deadline as an ISO date. */
  datatype Edit =
    | TitleEdited(text: string)
    | DifficultyChosen(text: string)
    | RewardChanged(amount: int)
    | DescriptionEdited(text: string)
    | DeadlineChanged(iso: string)

  /** The combo box reports only the text of one of its items. */
  predicate FromWidgets(e: Edit) {
    e.DifficultyChosen? ==> e.text in DifficultyItems
  }

  /** Each combo item is the stored text of a tier, in tier order, so the
      `CHECK` on `quests.difficulty` admits every item. */
  lemma ComboItemsAreTiers()
    ensures |DifficultyItems| == 4
    ensures DifficultyItems[0] == DifficultyName(Easy)
    ensures DifficultyItems[1] == DifficultyName(Medium)
    ensures DifficultyItems[2] == DifficultyName(Hard)
    ensures DifficultyItems[3] == DifficultyName(Epic)
    ensures forall t :: t in DifficultyItems ==> ParseDifficulty(Str(t)).Some?
  {
    StoreInvariants.DifficultyRoundTrip(Easy);
    StoreInvariants.DifficultyRoundTrip(Medium);
    StoreInvariants.DifficultyRoundTrip(Hard);
    StoreInvariants.DifficultyRoundTrip(Epic);
  }

  /** The column name and value each autosave handler passes to
      `update_quest_field`. */
  function AutosaveCall(e: Edit): (r: (string, Value))
    requires FromWidgets(e)
    ensures r.0 in UpdatableFields
    ensures r.0 == "difficulty" ==> ParseDifficulty(r.1).Some?
  {
    match e
    case TitleEdited(text) => ("title", Str(text))
    case DifficultyChosen(text) =>
      ComboItemsAreTiers();
      ("difficulty", Str(text))
    case RewardChanged(amount) => ("reward", Num(amount))
    case DescriptionEdited(text) => ("description", Str(text))
    case DeadlineChanged(iso) => ("deadline", Str(iso))
  }

  /** The autosave handlers never make `update_quest_field` raise: the name is
      always whitelisted and the difficulty always passes the `CHECK`. On an
      existing quest, reading it back shows the edited value. */
  lemma AutosaveNeverRaises(s: Store, id: int, e: Edit)
    requires FromWidgets(e)
    ensures UpdateField(s, id, AutosaveCall(e).0, AutosaveCall(e).1).Success?
    ensures id in s.quests ==>
              GetQuestAsDict(UpdateField(s, id, AutosaveCall(e).0, AutosaveCall(e).1).value, id).value[AutosaveCall(e).0]
              == AutosaveCall(e).1
  {
    var (field, value) := AutosaveCall(e);
    if id in s.quests {
      StoreInvariants.ReadAfterWrite(s, id, field, value);
    }
  }

  /** What the wizard emits: the id of a created quest, or an XP event name. */
  datatype Signal = QuestCreated(id: int) | XpEvent(name: string)

  /** `_on_create_clicked`: with an accepted form, announce the quest and the
      "create_quest" XP event; otherwise (a warning box) emit nothing. */
  function CreateClicked(title: string, description: string, questId: int): (r: seq<Signal>)
    ensures XpEvent("create_quest") in r <==> Validate(title, description)
    ensures QuestCreated(questId) in r <==> Validate(title, description)
    ensures |r| <= 2
  {
    if Validate(title, description) then [QuestCreated(questId), XpEvent("create_quest")] else []
  }

  /** The main window hands every XP event to `add_event`. */
  function ApplySignals(st: Gamification.XpState, signals: seq<Signal>): (r: Gamification.XpState)
    ensures r.xp == st.xp + SignalXp(signals)
    decreases |signals|
  {
    if signals == [] then st
    else
      var st1 := if signals[0].XpEvent? then Gamification.AddEvent(st, signals[0].name).0 else st;
      ApplySignals(st1, signals[1..])
  }

  /** The XP a sequence of signals is worth: the sum of its XP events' deltas. */
  function SignalXp(signals: seq<Signal>): int
    decreases |signals|
  {
    if signals == [] then 0
    else (if signals[0].XpEvent? then Gamification.Delta(signals[0].name) else 0) + SignalXp(signals[1..])
  }

  /** Pressing "create" earns 3 XP when the form is accepted and nothing otherwise. */
  lemma CreateClickXp(st: Gamification.XpState, title: string, description: string, questId: int)
    ensures ApplySignals(st, CreateClicked(title, description, questId)).xp
            == st.xp + (if Validate(title, description) then 3 else 0)
  {
    if Validate(title, description) {
      assert CreateClicked(title, description, questId) == [QuestCreated(questId), XpEvent("create_quest")];
      CreateSignalsXp(st, questId);
    } else {
      assert CreateClicked(title, description, questId) == [];
    }
  }

  /** The two signals of an accepted form are worth the "create_quest" XP. */
  lemma CreateSignalsXp(st: Gamification.XpState, questId: int)
    ensures ApplySignals(st, [QuestCreated(questId), XpEvent("create_quest")]).xp == st.xp + 3
  {
    var sigs := [QuestCreated(questId), XpEvent("create_quest")];
    var st1 := Gamification.AddEvent(st, "create_quest").0;
    assert sigs[1..] == [XpEvent("create_quest")];
    assert sigs[1..][1..] == [];
    assert ApplySignals(st, sigs) == ApplySignals(st, sigs[1..]);
    assert ApplySignals(st, sigs[1..]) == ApplySignals(st1, []);
    assert Gamification.Delta("create_quest") == 3;
  }
}

=== FILE: results.dfy ===
/** Optional values and fallible results, used where the Python code returns
    `None` or raises. */
module Results {

  /** A value that may be absent (Python `Optional[T]`). */
  datatype Option<+T> = None | Some(value: T)

  /** The outcome of an operation that either succeeds with a value or raises. */
  datatype Result<+T, +E> = Success(value: T) | Failure(error: E)
}

=== FILE: store_invariants.dfy ===
/** Properties of the quest store: every operation keeps the store invariant,
    snapshots are counted and kept in step with the records, draft titles are
    counted as the code counts them, and markers are only ever appended. */
module StoreInvariants {
  import opened Results
  import opened Text
  import opened QuestStore

  /** Appending one snapshot adds it to its own quest's history only. */
  lemma VersionsOfAppend(vs: seq<Version>, v: Version, id: int)
    ensures VersionsOf(vs + [v], id) == VersionsOf(vs, id) + (if v.questId == id then [v] else [])
  {
    SelectAppend(vs, v, (w: Version) => w.questId == id);
  }

  /** A fresh database satisfies the invariant. */
  lemma EmptyIsValid()
    ensures Valid(Empty)
  {
  }

  /** In a valid store, an id without a record has no snapshots. */
  lemma NoVersionsWithoutQuest(s: Store, id: int)
    requires Valid(s) && id !in s.quests
    ensures VersionCount(s, id) == 0
  {
    SelectNone(s.versions, (v: Version) => v.questId == id);
  }

  /** Writing one record (new or existing) and appending its snapshot keeps
      the invariant. */
  lemma WriteAndSnapshotKeepsValid(s: Store, t: Store, id: int)
    requires Valid(s)
    requires t.quests.Keys == s.quests.Keys + {id}
    requires forall k :: k in s.quests && k != id ==> t.quests[k] == s.quests[k]
    requires 1 <= id < t.nextId && s.nextId <= t.nextId && t.quests[id].id == id
    requires t.versions == s.versions + [SnapshotOf(t.quests[id])]
    requires t.locations == s.locations
    ensures Valid(t)
  {
    WriteKeepsIdsIssued(s, t, id);
    WriteKeepsVersionsOwned(s, t, id);
    WriteKeepsLatestIsCurrent(s, t, id);
  }

  /** The written record sits under an issued id; the others are untouched. */
  lemma WriteKeepsIdsIssued(s: Store, t: Store, id: int)
    requires IdsIssued(s)
    requires t.quests.Keys == s.quests.Keys + {id}
    requires forall k :: k in s.quests && k != id ==> t.quests[k] == s.quests[k]
    requires 1 <= id < t.nextId && s.nextId <= t.nextId && t.quests[id].id == id
    ensures IdsIssued(t)
  {
    forall k | k in t.quests
      ensures 1 <= k < t.nextId && t.quests[k].id == k
    {
      if k != id {
        assert k in s.quests;
      }
    }
  }

  /** The appended snapshot belongs to the written record, which exists. */
  lemma WriteKeepsVersionsOwned(s: Store, t: Store, id: int)
    requires VersionsOwned(s)
    requires t.quests.Keys == s.quests.Keys + {id}
    requires t.quests[id].id == id
    requires t.versions == s.versions + [SnapshotOf(t.quests[id])]
    ensures VersionsOwned(t)
  {
    forall i | 0 <= i < |t.versions|
      ensures t.versions[i].questId in t.quests
    {
      if i < |s.versions| {
        assert t.versions[i] == s.versions[i];
      }
    }
  }

  /** The appended snapshot is the written record's newest version; every
      other record keeps both its fields and its newest version. */
  lemma WriteKeepsLatestIsCurrent(s: Store, t: Store, id: int)
    requires LatestIsCurrent(s)
    requires t.quests.Keys == s.quests.Keys + {id}
    requires forall k :: k in s.quests && k != id ==> t.quests[k] == s.quests[k]
    requires t.quests[id].id == id
    requires t.versions == s.versions + [SnapshotOf(t.quests[id])]
    ensures LatestIsCurrent(t)
  {
    var snap := SnapshotOf(t.quests[id]);
    forall k | k in t.quests
      ensures LatestVersion(t.versions, k) == Some(SnapshotOf(t.quests[k]))
    {
      VersionsOfAppend(s.versions, snap, k);
      if k != id {
        assert k in s.quests;
      }
    }
  }

  /** `create_draft_quest` keeps the invariant. */
  lemma CreateDraftPreservesValid(s: Store)
    requires Valid(s)
    ensures Valid(CreateDraft(s).0)
  {
    var (t, id) := CreateDraft(s);
    WriteAndSnapshotKeepsValid(s, t, id);
  }

  /** `update_quest_field` keeps the invariant whenever it succeeds. */
  lemma UpdateFieldPreservesValid(s: Store, id: int, field: string, value: Value)
    requires Valid(s)
    requires UpdateField(s, id, field, value).Success?
    ensures Valid(UpdateField(s, id, field, value).value)
  {
    if id in s.quests {
      var t := UpdateField(s, id, field, value).value;
      assert s.quests.Keys + {id} == s.quests.Keys;
      WriteAndSnapshotKeepsValid(s, t, id);
    }
  }

  /** `add_location` keeps the invariant. */
  lemma AddLocationPreservesValid(s: Store, questId: int, x: real, y: real, kind: string, caption: string)
    requires Valid(s)
    ensures Valid(AddLocation(s, questId, x, y, kind, caption))
  {
  }

  /** The invariant's content clause: the latest snapshot of every quest equals
      the quest's current title, difficulty, reward and description. */
  lemma LatestSnapshotIsCurrent(s: Store, id: int)
    requires Valid(s) && id in s.quests
    ensures LatestVersion(s.versions, id).Some?
    ensures LatestVersion(s.versions, id).value.title == s.quests[id].title
    ensures LatestVersion(s.versions, id).value.difficulty == s.quests[id].difficulty
    ensures LatestVersion(s.versions, id).value.reward == s.quests[id].reward
    ensures LatestVersion(s.versions, id).value.description == s.quests[id].description
  {
  }

  /** A new draft has exactly one snapshot; no other quest gains one. */
  lemma DraftHasOneVersion(s: Store)
    requires Valid(s)
    ensures VersionCount(CreateDraft(s).0, CreateDraft(s).1) == 1
    ensures forall k :: k != CreateDraft(s).1 ==> VersionCount(CreateDraft(s).0, k) == VersionCount(s, k)
  {
    var (t, id) := CreateDraft(s);
    NoVersionsWithoutQuest(s, id);
    VersionsOfAppend(s.versions, SnapshotOf(t.quests[id]), id);
    forall k | k != id
      ensures VersionCount(t, k) == VersionCount(s, k)
    {
      VersionsOfAppend(s.versions, SnapshotOf(t.quests[id]), k);
    }
  }

  /** An accepted update on an existing quest adds one snapshot to it and to no
      other quest; an update on a missing id adds none. */
  lemma UpdateVersionCount(s: Store, id: int, field: string, value: Value, k: int)
    requires Valid(s)
    requires UpdateField(s, id, field, value).Success?
    ensures VersionCount(UpdateField(s, id, field, value).value, k)
            == VersionCount(s, k) + (if k == id && id in s.quests then 1 else 0)
  {
    var t := UpdateField(s, id, field, value).value;
    if id in s.quests {
      VersionsOfAppend(s.versions, SnapshotOf(t.quests[id]), k);
    }
  }

  /** Reading a quest back after an accepted update shows exactly the one new
      value: the dictionary is the old one with that key overwritten. */
  lemma ReadAfterWrite(s: Store, id: int, field: string, value: Value)
    requires id in s.quests
    requires UpdateField(s, id, field, value).Success?
    ensures GetQuestAsDict(UpdateField(s, id, field, value).value, id)
            == Some(GetQuestAsDict(s, id).value[field := value])
  {
    var t := UpdateField(s, id, field, value).value;
    var before := GetQuestAsDict(s, id).value;
    var after := GetQuestAsDict(t, id).value;
    var expected := before[field := value];
    assert after.Keys == expected.Keys;
    forall f | f in after.Keys
      ensures after[f] == expected[f]
    {
      if f == "id" {
        assert after[f] == Num(t.quests[id].id) == Num(s.quests[id].id);
      } else if f == field {
        assert after[f] == FieldOf(t.quests[id], f) == value;
      } else {
        assert after[f] == FieldOf(t.quests[id], f) == FieldOf(s.quests[id], f);
      }
    }
    assert after == expected;
  }

  /** Editing the deadline writes a snapshot equal to the quest's previous one,
      since the deadline is not part of a snapshot. */
  lemma DeadlineEditRepeatsSnapshot(s: Store, id: int, value: Value)
    requires Valid(s) && id in s.quests
    ensures UpdateField(s, id, "deadline", value).Success?
    ensures var t := UpdateField(s, id, "deadline", value).value;
            |t.versions| == |s.versions| + 1
            && Some(t.versions[|s.versions|]) == LatestVersion(s.versions, id)
  {
    var t := UpdateField(s, id, "deadline", value).value;
    assert FieldOf(t.quests[id], "title") == FieldOf(s.quests[id], "title");
    assert FieldOf(t.quests[id], "difficulty") == FieldOf(s.quests[id], "difficulty");
    assert FieldOf(t.quests[id], "reward") == FieldOf(s.quests[id], "reward");
    assert FieldOf(t.quests[id], "description") == FieldOf(s.quests[id], "description");
  }

  /** A difficulty outside the four tiers is refused by the `CHECK` on an
      existing quest, and accepted as a no-op on a missing id (the UPDATE
      touches no row, so the constraint is never evaluated). */
  lemma BadDifficultyRejected(s: Store, id: int, value: Value)
    requires forall d: Difficulty :: value != Str(DifficultyName(d))
    ensures id in s.quests ==> UpdateField(s, id, "difficulty", value) == Failure(DifficultyRejected(value))
    ensures id !in s.quests ==> UpdateField(s, id, "difficulty", value) == Success(s)
  {
  }

  /** Every tier's name passes the `CHECK` and reads back as the same tier. */
  lemma DifficultyRoundTrip(d: Difficulty)
    ensures ParseDifficulty(Str(DifficultyName(d))) == Some(d)
  {
  }

  /** The numbered draft titles are pairwise different. */
  lemma DraftTitleInjective(m: nat, n: nat)
    requires DraftTitle(m) == DraftTitle(n)
    ensures m == n
  {
    if m > 0 && n > 0 {
      var k := |DraftPrefix| + 2;
      assert DraftTitle(m)[k..] == DecimalString(m + 1);
      assert DraftTitle(n)[k..] == DecimalString(n + 1);
      DecimalInjective(m + 1, n + 1);
    }
  }

  /** Creating a draft adds one to the number of draft-prefixed titles, since
      its own title carries the prefix. */
  lemma CountAfterCreate(s: Store)
    requires Valid(s)
    ensures CountDraftTitles(CreateDraft(s).0) == CountDraftTitles(s) + 1
  {
    var (t, id) := CreateDraft(s);
    assert DraftIds(t) == DraftIds(s) + {id};
    assert id !in DraftIds(s);
  }

  /** Retitling one quest changes the count only by whether its old and new
      titles carry the prefix. */
  lemma CountAfterRetitle(s: Store, id: int, value: Value)
    requires id in s.quests
    ensures UpdateField(s, id, "title", value).Success?
    ensures CountDraftTitles(UpdateField(s, id, "title", value).value) + (if IsDraftTitle(s.quests[id].title) then 1 else 0)
            == CountDraftTitles(s) + (if IsDraftTitle(value) then 1 else 0)
  {
    var t := UpdateField(s, id, "title", value).value;
    assert t.quests[id].title == value by {
      assert FieldOf(t.quests[id], "title") == value;
    }
    var rest := DraftIds(s) - {id};
    SplitDraftIds(s, id, rest);
    SplitDraftIds(t, id, rest);
  }

  /** The draft-prefixed ids, split into one id and all the others. */
  lemma SplitDraftIds(s: Store, id: int, rest: set<int>)
    requires id in s.quests
    requires forall k :: k in rest <==> k != id && k in s.quests && IsDraftTitle(s.quests[k].title)
    ensures CountDraftTitles(s) == |rest| + (if IsDraftTitle(s.quests[id].title) then 1 else 0)
  {
    var extra: set<int> := if IsDraftTitle(s.quests[id].title) then {id} else {};
    forall k
      ensures k in DraftIds(s) <==> k in rest + extra
    {
      if k in DraftIds(s) {
        assert k in s.quests && IsDraftTitle(s.quests[k].title);
      }
    }
    assert DraftIds(s) == rest + extra;
    assert CountDraftTitles(s) == |DraftIds(s)|;
  }

  /** From an empty database, two drafts are titled "Новый квест" and
      "Новый квест #2". */
  lemma TwoDraftsFromEmpty()
    ensures var (s1, a) := CreateDraft(Empty);
            var (s2, b) := CreateDraft(s1);
            && s2.quests[a].title == Str("Новый квест")
            && s2.quests[b].title == Str("Новый квест #2")
            && a != b
  {
    FirstDraftCounted();
    SecondDraftTitle();
  }

  /** The first draft of an empty database leaves a valid store with one
      prefixed title. */
  lemma FirstDraftCounted()
    ensures Valid(CreateDraft(Empty).0)
    ensures CountDraftTitles(CreateDraft(Empty).0) == 1
  {
    assert DraftIds(Empty) == {};
    CreateDraftPreservesValid(Empty);
    CountAfterCreate(Empty);
  }

  /** With one prefixed title present, the next draft is numbered 2. */
  lemma SecondDraftTitle()
    ensures DraftTitle(1) == "Новый квест #2"
  {
    assert DecimalString(2) == "2";
  }

  /** The counting scheme does not make titles unique: after two drafts, retitling
      the first away from the prefix and creating a third gives the third the
      same title as the second. */
  lemma DraftTitleCanRepeat()
    ensures var (s1, a) := CreateDraft(Empty);
            var (s2, b) := CreateDraft(s1);
            var s3 := UpdateField(s2, a, "title", Str("Логово дракона")).value;
            var (s4, c) := CreateDraft(s3);
            b != c && s4.quests[b].title == s4.quests[c].title
  {
    var (s1, a) := CreateDraft(Empty);
    assert DraftIds(Empty) == {};
    CreateDraftPreservesValid(Empty);
    CountAfterCreate(Empty);
    var (s2, b) := CreateDraft(s1);
    CountAfterCreate(s1);
    CreateDraftPreservesValid(s1);
    var s3 := UpdateField(s2, a, "title", Str("Логово дракона")).value;
    CountAfterRetitle(s2, a, Str("Логово дракона"));
    assert "Логово дракона"[0] != DraftPrefix[0];
    UpdateFieldPreservesValid(s2, a, "title", Str("Логово дракона"));
    var (s4, c) := CreateDraft(s3);
    assert s3.quests[b] == s2.quests[b];
  }

  /** Adding a marker extends the quest's marker list by that marker and leaves
      every other quest's list as it was. */
  lemma AddLocationThenList(s: Store, questId: int, x: real, y: real, kind: string, caption: string, q: int)
    ensures GetLocationsForQuest(AddLocation(s, questId, x, y, kind, caption), q)
            == GetLocationsForQuest(s, q)
               + (if q == questId then [Location(|s.locations| + 1, questId, x, y, kind, caption)] else [])
  {
    var l := Location(|s.locations| + 1, questId, x, y, kind, caption);
    assert AddLocation(s, questId, x, y, kind, caption).locations == s.locations + [l];
    SelectAppend(s.locations, l, (m: Location) => m.questId == q);
  }

  /** Two identical `add_location` calls give two distinct rows. */
  lemma DuplicateMarkersKept(s: Store, questId: int, x: real, y: real, kind: string, caption: string)
    ensures var t := AddLocation(AddLocation(s, questId, x, y, kind, caption), questId, x, y, kind, caption);
            var before := GetLocationsForQuest(s, questId);
            var after := GetLocationsForQuest(t, questId);
            && |after| == |before| + 2
            && after[..|before|] == before
            && after[|before|].id != after[|before| + 1].id
            && after[|before|].(id := 0) == after[|before| + 1].(id := 0)
  {
    var s1 := AddLocation(s, questId, x, y, kind, caption);
    AddLocationThenList(s, questId, x, y, kind, caption, questId);
    AddLocationThenList(s1, questId, x, y, kind, caption, questId);
  }

  /** A marker for a quest id with no record is stored all the same. */
  lemma MarkerForUnknownQuestStored(s: Store, questId: int, x: real, y: real, kind: string, caption: string)
    requires questId !in s.quests
    ensures var t := AddLocation(s, questId, x, y, kind, caption);
            && GetQuest(t, questId).None?
            && |GetLocationsForQuest(t, questId)| == |GetLocationsForQuest(s, questId)| + 1
  {
    AddLocationThenList(s, questId, x, y, kind, caption, questId);
  }
}

=== FILE: text.dfy ===
/** String helpers with Python's semantics: the whitespace class shared by
    `str.strip()` and the `\s` of a `str` regular expression, `str.strip()`
    itself, and the decimal rendering of a non-negative `int` by an f-string. */
module Text {

  /** Python's `str.isspace()` on one character, which is also what `\s`
      matches in a `str` pattern: the ASCII controls TAB..CR and FS..US, SPACE,
      NEL, NO-BREAK SPACE, and the Unicode separators. */
  predicate IsSpace(c: char) {
    c in SpaceChars
  }

  /** The 29 whitespace characters, listed. */
  const SpaceChars: set<char> := {
      '\U{0009}', '\U{000A}', '\U{000B}', '\U{000C}', '\U{000D}', '\U{001C}',
      '\U{001D}', '\U{001E}', '\U{001F}', '\U{0020}', '\U{0085}', '\U{00A0}',
      '\U{1680}', '\U{2000}', '\U{2001}', '\U{2002}', '\U{2003}', '\U{2004}',
      '\U{2005}', '\U{2006}', '\U{2007}', '\U{2008}', '\U{2009}', '\U{200A}',
      '\U{2028}', '\U{2029}', '\U{202F}', '\U{205F}', '\U{3000}'
    }

  /** Every character of `s` is whitespace (vacuously true of ""). */
  predicate AllSpace(s: string) {
    forall i :: 0 <= i < |s| ==> IsSpace(s[i])
  }

  /** Every character of `s` is non-whitespace. */
  predicate NoSpace(s: string) {
    forall i :: 0 <= i < |s| ==> !IsSpace(s[i])
  }

  /** Python `s.lstrip()`: drop leading whitespace. */
  function StripLeading(s: string): (r: string)
    ensures |r| <= |s| && r == s[|s| - |r|..]
    ensures r != [] ==> !IsSpace(r[0])
    decreases |s|
  {
    if s != [] && IsSpace(s[0]) then
      var t := s[1..];
      var r := StripLeading(t);
      assert s[|s| - |r|..] == t[|t| - |r|..];
      r
    else
      s
  }

  /** What `lstrip()` drops is whitespace. */
  lemma {:induction false} LeadingGapIsSpace(s: string)
    ensures AllSpace(s[..|s| - |StripLeading(s)|])
    decreases |s|
  {
    if s != [] && IsSpace(s[0]) {
      var t := s[1..];
      LeadingGapIsSpace(t);
      var gap := s[..|s| - |StripLeading(s)|];
      var rest := t[..|t| - |StripLeading(t)|];
      assert gap == [s[0]] + rest;
    }
  }

  /** Python `s.rstrip()`: drop trailing whitespace. */
  function StripTrailing(s: string): (r: string)
    ensures |r| <= |s| && r == s[..|r|]
    ensures r != [] ==> !IsSpace(r[|r| - 1])
    decreases |s|
  {
    if s != [] && IsSpace(s[|s| - 1]) then
      var t := s[..|s| - 1];
      var r := StripTrailing(t);
      assert s[..|r|] == t[..|r|];
      r
    else
      s
  }

  /** What `rstrip()` drops is whitespace. */
  lemma {:induction false} TrailingGapIsSpace(s: string)
    ensures AllSpace(s[|StripTrailing(s)|..])
    decreases |s|
  {
    if s != [] && IsSpace(s[|s| - 1]) {
      var t := s[..|s| - 1];
      TrailingGapIsSpace(t);
      var gap := s[|StripTrailing(s)|..];
      var rest := t[|StripTrailing(t)|..];
      assert gap == rest + [s[|s| - 1]];
    }
  }

  /** Python `s.strip()` with no argument. */
  function Strip(s: string): (r: string)
    ensures |r| <= |s|
    ensures r == [] <==> AllSpace(s)
    ensures r != [] ==> !IsSpace(r[0]) && !IsSpace(r[|r| - 1])
    ensures exists i :: 0 <= i <= |s| - |r| && r == s[i..i + |r|] && AllSpace(s[..i]) && AllSpace(s[i + |r|..])
  {
    var l := StripLeading(s);
    var r := StripTrailing(l);
    LeadingGapIsSpace(s);
    TrailingGapIsSpace(l);
    TrimShape(s, l, r);
    r
  }

  /** Cutting whitespace off the front of `s` (leaving `l`) and then off the
      back of `l` (leaving `r`) keeps one slice of `s` with only whitespace cut
      away on either side; nothing is left exactly when `s` is all whitespace. */
  lemma TrimShape(s: string, l: string, r: string)
    requires |l| <= |s| && l == s[|s| - |l|..] && AllSpace(s[..|s| - |l|])
    requires l != [] ==> !IsSpace(l[0])
    requires |r| <= |l| && r == l[..|r|] && AllSpace(l[|r|..])
    requires r != [] ==> !IsSpace(r[|r| - 1])
    ensures r == s[|s| - |l|..|s| - |l| + |r|]
    ensures AllSpace(s[..|s| - |l|]) && AllSpace(s[|s| - |l| + |r|..])
    ensures r != [] ==> !IsSpace(r[0]) && !IsSpace(r[|r| - 1])
    ensures r == [] <==> AllSpace(s)
  {
    var i := |s| - |l|;
    assert s[i + |r|..] == l[|r|..];
    if r != [] {
      assert r[0] == l[0];
      assert !IsSpace(s[i]);
    } else {
      assert l[|r|..] == l;
      assert AllSpace(l);
      assert s[..i] == s;
    }
  }

  /** Whitespace in front is dropped by `lstrip()`. */
  lemma {:induction false} StripLeadingAfterSpace(a: string, x: string)
    requires AllSpace(a)
    ensures StripLeading(a + x) == StripLeading(x)
    decreases |a|
  {
    if a != [] {
      assert (a + x)[0] == a[0];
      assert (a + x)[1..] == a[1..] + x;
      assert AllSpace(a[1..]) by {
        forall i | 0 <= i < |a| - 1 ensures IsSpace(a[1..][i]) {
          assert a[1..][i] == a[i + 1];
        }
      }
      StripLeadingAfterSpace(a[1..], x);
    } else {
      assert a + x == x;
    }
  }

  /** Text appended after a non-whitespace character survives `lstrip()` whole. */
  lemma {:induction false} StripLeadingAppend(s: string, b: string)
    requires !AllSpace(s)
    ensures StripLeading(s + b) == StripLeading(s) + b
    decreases |s|
  {
    assert (s + b)[0] == s[0];
    if IsSpace(s[0]) {
      assert (s + b)[1..] == s[1..] + b;
      assert !AllSpace(s[1..]) by {
        var i :| 0 <= i < |s| && !IsSpace(s[i]);
        assert s[1..][i - 1] == s[i];
      }
      StripLeadingAppend(s[1..], b);
    }
  }

  /** Whitespace at the end is dropped by `rstrip()`. */
  lemma {:induction false} StripTrailingBeforeSpace(x: string, b: string)
    requires AllSpace(b)
    ensures StripTrailing(x + b) == StripTrailing(x)
    decreases |b|
  {
    if b != [] {
      var u := x + b;
      assert u[|u| - 1] == b[|b| - 1];
      assert u[..|u| - 1] == x + b[..|b| - 1];
      var init := b[..|b| - 1];
      assert AllSpace(init) by {
        forall i | 0 <= i < |init| ensures IsSpace(init[i]) {
          assert init[i] == b[i];
        }
      }
      StripTrailingBeforeSpace(x, init);
    } else {
      assert x + b == x;
    }
  }

  /** Two whitespace strings make a whitespace string. */
  lemma AllSpaceConcat(a: string, b: string)
    requires AllSpace(a) && AllSpace(b)
    ensures AllSpace(a + b)
  {
    forall i | 0 <= i < |a + b|
      ensures IsSpace((a + b)[i])
    {
      if i >= |a| {
        assert (a + b)[i] == b[i - |a|];
      }
    }
  }

  /** Adding or removing whitespace around a string does not change what
      `strip()` returns. */
  lemma StripIgnoresSurroundingSpace(a: string, s: string, b: string)
    requires AllSpace(a) && AllSpace(b)
    ensures Strip(a + s + b) == Strip(s)
  {
    if AllSpace(s) {
      AllSpaceConcat(a, s);
      AllSpaceConcat(a + s, b);
    } else {
      assert a + s + b == a + (s + b);
      StripLeadingAfterSpace(a, s + b);
      StripLeadingAppend(s, b);
      StripTrailingBeforeSpace(StripLeading(s), b);
    }
  }

  /** The decimal digit character for `d`. */
  function DigitChar(d: nat): (c: char)
    requires d < 10
    ensures '0' <= c <= '9'
    ensures c as int - '0' as int == d
  {
    (d + '0' as int) as char
  }

  /** Every character of `s` is an ASCII decimal digit. */
  predicate AllDigits(s: string) {
    forall i :: 0 <= i < |s| ==> '0' <= s[i] <= '9'
  }

  /** Python `str(n)` (or `f"{n}"`) for a non-negative integer: its decimal
      digits, most significant first, without leading zeros. */
  function DecimalString(n: nat): (r: string)
    ensures |r| >= 1 && AllDigits(r)
    ensures n > 0 ==> r[0] != '0'
    ensures n == 0 ==> r == "0"
  {
    if n < 10 then [DigitChar(n)]
    else DecimalString(n / 10) + [DigitChar(n % 10)]
  }

  /** The number a string of decimal digits denotes. */
  function DecimalValue(s: string): nat
    requires AllDigits(s)
  {
    if s == [] then 0
    else DecimalValue(s[..|s| - 1]) * 10 + (s[|s| - 1] as int - '0' as int)
  }

  /** Reading back the rendered digits gives the number again. */
  lemma {:induction false} DecimalRoundTrip(n: nat)
    ensures DecimalValue(DecimalString(n)) == n
  {
    var r := DecimalString(n);
    if n >= 10 {
      DecimalRoundTrip(n / 10);
      assert r[..|r| - 1] == DecimalString(n / 10);
    }
  }

  /** Different numbers render differently. */
  lemma DecimalInjective(m: nat, n: nat)
    requires DecimalString(m) == DecimalString(n)
    ensures m == n
  {
    DecimalRoundTrip(m);
    DecimalRoundTrip(n);
  }
}

=== FILE: xp_properties.dfy ===
/** Properties of the XP engine: the level is always the name of the highest
    threshold reached, XP only grows and is the sum of the known events' XP, the
    log gains one line per XP-earning event, and the progress percentage has the
    bounds and the boundary values the formula gives. */
module XpProperties {
  import opened Gamification

  /** A scan over entries none of which the XP reaches keeps its starting name. */
  lemma {:induction false} ScanNoneReached(levels: seq<(string, int)>, xp: int, level: string)
    requires forall j :: 0 <= j < |levels| ==> levels[j].1 > xp
    ensures ScanLevels(levels, xp, level) == level
    decreases |levels|
  {
    if levels != [] {
      assert forall j :: 1 <= j < |levels| ==> levels[1..][j - 1] == levels[j];
      ScanNoneReached(levels[1..], xp, level);
    }
  }

  /** The scan ends on the name of the LAST entry, in definition order, whose
      threshold the XP reaches, whatever order the thresholds are in. */
  lemma {:induction false} ScanFindsLastReached(levels: seq<(string, int)>, xp: int, level: string, i: nat)
    requires i < |levels| && levels[i].1 <= xp
    requires forall j :: i < j < |levels| ==> levels[j].1 > xp
    ensures ScanLevels(levels, xp, level) == levels[i].0
    decreases |levels|
  {
    var next := if xp >= levels[0].1 then levels[0].0 else level;
    assert forall j :: 1 <= j < |levels| ==> levels[1..][j - 1] == levels[j];
    if i == 0 {
      ScanNoneReached(levels[1..], xp, next);
    } else {
      ScanFindsLastReached(levels[1..], xp, next, i - 1);
    }
  }

  /** For a non-negative XP, the level is the name of the largest threshold not
      above it. */
  lemma LevelIsHighestReached(xp: int)
    requires xp >= 0
    ensures exists i :: 0 <= i < |Levels| && Levels[i].1 <= xp && LevelOf(xp) == Levels[i].0
                        && forall j :: 0 <= j < |Levels| && Levels[j].1 <= xp ==> Levels[j].1 <= Levels[i].1
  {
    var i := if xp >= 100 then 2 else if xp >= 50 then 1 else 0;
    ScanFindsLastReached(Levels, xp, StartLevel, i);
    assert Levels[i].1 <= xp && LevelOf(xp) == Levels[i].0;
    forall j | 0 <= j < |Levels| && Levels[j].1 <= xp
      ensures Levels[j].1 <= Levels[i].1
    {
      assert j <= i;
    }
  }

  /** The level as a step function of XP: below 0 and up to 49 the first level,
      from 50 the second, from 100 the third. */
  lemma LevelBands(xp: int)
    ensures xp < 50 ==> LevelOf(xp) == "Ученик"
    ensures 50 <= xp < 100 ==> LevelOf(xp) == "Мастер пергаментов"
    ensures 100 <= xp ==> LevelOf(xp) == "Архимаг документов"
  {
    if xp >= 100 {
      ScanFindsLastReached(Levels, xp, StartLevel, 2);
    } else if xp >= 50 {
      ScanFindsLastReached(Levels, xp, StartLevel, 1);
    } else if xp >= 0 {
      ScanFindsLastReached(Levels, xp, StartLevel, 0);
    } else {
      ScanNoneReached(Levels, xp, StartLevel);
    }
  }

  /** The state invariant: XP is non-negative and the level is derived from it. */
  ghost predicate Consistent(st: XpState) {
    st.xp >= 0 && st.level == LevelOf(st.xp)
  }

  /** A fresh manager is consistent: 0 XP is at the first level. */
  lemma InitialConsistent()
    ensures Consistent(Initial)
  {
    LevelBands(0);
  }

  /** Every event keeps the state consistent, known or not. */
  lemma AddEventKeepsConsistent(st: XpState, event: string)
    requires Consistent(st)
    ensures Consistent(AddEvent(st, event).0)
  {
  }

  /** An unknown event name changes nothing. */
  lemma UnknownEventIsNoOp(st: XpState, event: string)
    requires Consistent(st) && event !in EventXp
    ensures AddEvent(st, event).0 == st
  {
  }

  /** The state after a sequence of events, first event first. */
  function RunEvents(st: XpState, events: seq<string>): XpState
    decreases |events|
  {
    if events == [] then st else RunEvents(AddEvent(st, events[0]).0, events[1..])
  }

  /** The XP the known events of a sequence are worth together. */
  function TotalXp(events: seq<string>): int
    decreases |events|
  {
    if events == [] then 0 else Delta(events[0]) + TotalXp(events[1..])
  }

  /** The log lines a sequence of events writes: one per known event, in order. */
  function LogLines(events: seq<string>): seq<string>
    decreases |events|
  {
    if events == [] then []
    else (if events[0] in EventXp then [AchievementText(Delta(events[0]), events[0])] else [])
         + LogLines(events[1..])
  }

  /** After any sequence of events: XP is the start XP plus the known events'
      worth, the state stays consistent, and the log is the old log followed by
      one line per known event. */
  lemma RunEventsSummary(st: XpState, events: seq<string>)
    requires Consistent(st)
    ensures RunEvents(st, events).xp == st.xp + TotalXp(events)
    ensures Consistent(RunEvents(st, events))
    ensures RunEvents(st, events).achievements == st.achievements + LogLines(events)
  {
    RunEventsXp(st, events);
    RunEventsConsistent(st, events);
    RunEventsLog(st, events);
  }

  /** The XP after a sequence of events is the start XP plus the events' worth. */
  lemma {:induction false} RunEventsXp(st: XpState, events: seq<string>)
    ensures RunEvents(st, events).xp == st.xp + TotalXp(events)
    decreases |events|
  {
    if events != [] {
      RunEventsXp(AddEvent(st, events[0]).0, events[1..]);
    }
  }

  /** A sequence of events keeps the state consistent. */
  lemma {:induction false} RunEventsConsistent(st: XpState, events: seq<string>)
    requires Consistent(st)
    ensures Consistent(RunEvents(st, events))
    decreases |events|
  {
    if events != [] {
      AddEventKeepsConsistent(st, events[0]);
      RunEventsConsistent(AddEvent(st, events[0]).0, events[1..]);
    }
  }

  /** A sequence of events appends one log line per known event, in order. */
  lemma {:induction false} RunEventsLog(st: XpState, events: seq<string>)
    ensures RunEvents(st, events).achievements == st.achievements + LogLines(events)
    decreases |events|
  {
    if events != [] {
      var e := events[0];
      var rest := events[1..];
      var st1 := AddEvent(st, e).0;
      var line := if e in EventXp then [AchievementText(Delta(e), e)] else [];
      assert st1.achievements == st.achievements + line;
      assert LogLines(events) == line + LogLines(rest);
      RunEventsLog(st1, rest);
      assert st.achievements + line + LogLines(rest) == st.achievements + (line + LogLines(rest));
    }
  }

  /** XP never decreases along a sequence of events: the XP after a prefix is
      at most the XP after any longer prefix. */
  lemma {:induction false} XpNonDecreasing(st: XpState, events: seq<string>, i: nat, j: nat)
    requires i <= j <= |events|
    ensures RunEvents(st, events[..i]).xp <= RunEvents(st, events[..j]).xp
    decreases |events|
  {
    if i > 0 {
      var st1 := AddEvent(st, events[0]).0;
      assert events[..i] == [events[0]] + events[1..][..i - 1];
      assert events[..j] == [events[0]] + events[1..][..j - 1];
      XpNonDecreasing(st1, events[1..], i - 1, j - 1);
    } else {
      TotalXpNonNegative(events[..j]);
      RunEventsGrows(st, events[..j]);
    }
  }

  /** The XP of any sequence of events is non-negative. */
  lemma {:induction false} TotalXpNonNegative(events: seq<string>)
    ensures TotalXp(events) >= 0
    decreases |events|
  {
    if events != [] {
      TotalXpNonNegative(events[1..]);
    }
  }

  /** Running events from a state never lowers its XP. */
  lemma {:induction false} RunEventsGrows(st: XpState, events: seq<string>)
    ensures RunEvents(st, events).xp >= st.xp
    decreases |events|
  {
    if events != [] {
      RunEventsGrows(AddEvent(st, events[0]).0, events[1..]);
    }
  }

  /** Three events from a fresh manager: two quests and a boss fight give
      3 + 3 + 20 = 26 XP, still the first level, and three log lines. */
  lemma ThreeEventsExample()
    ensures var st := RunEvents(Initial, ["create_quest", "create_quest", "boss_fight"]);
            st.xp == 26 && st.level == "Ученик" && |st.achievements| == 3
  {
    LevelBands(3);
    LevelBands(6);
    LevelBands(26);
  }

  /** Below the highest threshold the next threshold lies strictly above the
      previous one, and the percentage lies in [0, 100). */
  lemma ProgressBelowMax(xp: int)
    requires 0 <= xp < 100
    ensures var ts := Thresholds();
            NextThreshold(ts, xp, ts[|ts| - 1]) > PrevThreshold(ts, xp, 0)
    ensures 0 <= Progress(xp) < 100
  {
    var ts := Thresholds();
    assert ts[2] > xp;
    var next := NextThreshold(ts, xp, ts[|ts| - 1]);
    var prev := PrevThreshold(ts, xp, 0);
    assert prev <= xp < next;
    var span := next - prev;
    assert 0 <= (xp - prev) * 100 < span * 100;
    DivBelow((xp - prev) * 100, span);
  }

  /** A non-negative multiple of 100 below 100 spans divides to a value in [0, 100). */
  lemma DivBelow(a: int, span: int)
    requires span > 0 && 0 <= a < span * 100
    ensures 0 <= a / span < 100
  {
  }

  /** The boundary values: 0 at 0 XP and at 50 XP, 0 (not 100) at exactly
      100 XP, and 200 at 102 XP, past 100 percent. */
  lemma ProgressBoundaryValues(xp: int)
    ensures xp == 0 ==> Progress(xp) == 0
    ensures xp == 50 ==> Progress(xp) == 0
    ensures xp == 100 ==> Progress(xp) == 0
    ensures xp == 102 ==> Progress(xp) == 200
  {
  }
}
